=== FILE: README.md ===
# MP3 renamer: transcript-to-filename pipeline in Dafny

This project models the decision core of `mp3_renamer.py`, a command-line tool
that renames MP3 files after the speech at their start. The tool decodes the audio,
transcribes a time window with Whisper or Google Speech Recognition, cuts the
transcript down to a short phrase, sanitises that phrase into a filename stem
and renames the file. The model covers the text-and-decision part of that
pipeline:

- `Text`: the Python string primitives the tool relies on, on `seq<char>`.
  These are `str.isspace()` (the full Unicode table, which the regex class `\s` shares),
  `strip`, `rstrip`, `split()`, `' '.join` and the normalisation
  `' '.join(text.split())`.
- `Patterns`: the seven regular expressions of `extract_first_sentence` (three
  sentence boundaries, four natural breaks), as a `Pattern` datatype with a
  match predicate. `re.search` is modelled as the leftmost match.
- `Extractor`: `extract_first_sentence` with its fallback chain. Sentence boundaries
  come first, then natural breaks after index 10, then the 12-word or
  50-character cap. The module also holds the `--first N` bypass and the
  choice between the two in `process_mp3_file`.
- `Sanitizer`: `clean_filename`.
- `Renamer`: `pathlib`'s suffix and stem, `rename_mp3_file`, and the
  rename-or-keep decision of `process_mp3_file`.
- `Gateway`: the millisecond clip window both engines cut, the
  Whisper-then-Google fallback of `transcribe_audio`, and the engine
  selection in `main`.

Audio, speech engines and the filesystem are inputs. A transcript is an
`Option<string>`. The filesystem's verdict on a rename is a `bool`. An audio
clip is a sequence with one element per millisecond. The ffmpeg check and the
model load are `bool`s.

Three behaviours of the code are worth knowing, and the model states them:

- `clean_filename` is not idempotent. `"hello ?"` cleans to `"hello "`,
  because the space is stripped before the mark is removed, and `"hello "`
  cleans again to `"hello"`. A cut stem ending in `"..."` also loses its dots
  on a second pass. `Sanitizer.CleanFixedPoints` states exactly which stems
  are left alone, and `Sanitizer.CleanNotIdempotent` exhibits the input.
- After a natural break at index `i`, the phrase is `text[:i]` stripped. For
  `" and "`, `" but "` and `" so "` that is exactly `i` characters. For `", "`
  it is one shorter when the comma follows a space (`"... word , next"`). So
  the phrase has at least 10 characters, but not necessarily more than 10,
  although the break must start after index 10.
- `--first N` takes any integer. A negative `N` follows Python slicing:
  `words[:N]` drops the last `-N` words.

## Model

| member | source | states |
|---|---|---|
| `Text.Trim` | mp3_renamer.py:101 | `strip`: the result is the slice between the leading and trailing runs of stripped characters, removes nothing else, and neither starts nor ends with a stripped character |
| `Text.Words` | mp3_renamer.py:93 | `split()`: every element is a non-empty, whitespace-free word, and the empty string has no words; which words they are is pinned by `Text.WordsOfWord` and `Text.WordsSplitAtSpace` |
| `Text.WordsOfWord` | mp3_renamer.py:93 | a single whitespace-free, non-empty string splits into exactly itself |
| `Text.WordsSplitAtSpace` | mp3_renamer.py:93 | `split()` cuts at every whitespace character: the words of a string are the words before any whitespace character followed by the words after it |
| `Text.WordsOfJoin` | mp3_renamer.py:95 | splitting words joined by single spaces gives back exactly those words |
| `Text.Normalise` | mp3_renamer.py:72 | the normalised text has single spaces between words, no whitespace at the ends, and the same words as the input; it is empty exactly when the input has no word |
| `Text.NormaliseFixedPoints` | mp3_renamer.py:72 | normalising leaves a string unchanged exactly when it already has the normalised shape |
| `Text.StripNormalisedPrefix` | mp3_renamer.py:92 | stripping a prefix of normalised text removes at most the single space it ends with |
| `Patterns.MatchesAt` | mp3_renamer.py:74-87 | where each of the seven patterns can match: inside the text; both terminal-then-whitespace patterns start with a mark followed by whitespace; a spaced word starts on whitespace and leaves room for the word and the whitespace after it |
| `Patterns.Search` | mp3_renamer.py:79 | `re.search` reports a position where the pattern matches with no match to its left, and reports nothing only when no position matches |
| `Patterns.FirstAccepted` | mp3_renamer.py:89-91 | the loop over patterns returns the first pattern whose leftmost match starts after the threshold, with that start; every earlier pattern is rejected; nothing is returned only when every pattern is rejected |
| `Extractor.Shorten` | mp3_renamer.py:73-82 | the phrase has no whitespace at either end, and when the text holds a terminal mark it is non-empty and ends in one |
| `Extractor.CutAtBreak` | mp3_renamer.py:83-92 | with an accepted break, the phrase is no longer than the break's start index; no whitespace at either end |
| `Extractor.CapLength` | mp3_renamer.py:93-96 | more than 12 words give a phrase ending in `...`; otherwise the phrase has at most 50 characters; no whitespace at either end |
| `Extractor.ExtractFirstSentence` | mp3_renamer.py:69-96 | no phrase exactly for a missing or empty transcript; otherwise a phrase with no whitespace at either end |
| `Extractor.ExtractEndsAtTerminal` | mp3_renamer.py:73-82 | if the normalised text contains `.`, `!` or `?`, the phrase is a non-empty prefix of it ending in one of them |
| `Extractor.ExtractAtCapitalBoundary` | mp3_renamer.py:74-82 | a mark followed by whitespace and `A`-`Z` ends the phrase at its leftmost occurrence, even when a bare mark comes earlier |
| `Extractor.ExtractAtSpaceBoundary` | mp3_renamer.py:75-82 | with no capital boundary, the leftmost mark followed by whitespace ends the phrase |
| `Extractor.ExtractAtBareMark` | mp3_renamer.py:76-82 | with neither earlier boundary, the leftmost mark ends the phrase |
| `Extractor.ExtractAtBreak` | mp3_renamer.py:83-92 | with no mark, the first break pattern whose first occurrence starts after index 10 cuts the phrase before the break; the phrase is a prefix of at least 10 characters, exactly the start index long unless a comma follows a space |
| `Extractor.ExtractCapsWords` | mp3_renamer.py:93-95 | with no mark and no accepted break, more than 12 words give the first 12 joined by single spaces followed by `...` |
| `Extractor.ExtractShortText` | mp3_renamer.py:96 | otherwise the phrase is the whole text when it has at most 50 characters, and its first 50 characters, less the 50th when that is a space, when it is longer |
| `Extractor.ExtractExample` | mp3_renamer.py:72-82 | `"Hello world. This is a test."` yields `"Hello world."` |
| `Extractor.ShortExample` | mp3_renamer.py:83-96 | `"short text"`, with no mark, no break after index 10 and at most 50 characters, yields itself |
| `Extractor.FirstWords` | mp3_renamer.py:136-140 | more than N words: the result is normalised and its words are exactly `words[:N]`: the first N for N ≥ 0, and for negative N all but the last -N (none when -N is at least the word count); otherwise the transcript unchanged |
| `Extractor.FirstWordsExample` | mp3_renamer.py:136-140 | `"a b c d e"` with N = 3 yields `"a b c"`; with N = 10 it is kept as it is |
| `Extractor.ChoosePhrase` | mp3_renamer.py:135-142 | the first-N bypass applies only when N is given and the transcript is non-empty; a missing or empty transcript gives no phrase |
| `Sanitizer.Prepared` | mp3_renamer.py:101-102 | a prefix of the stripped text that drops exactly the trailing run of `.`, `!` and `?`: it starts with a non-space and does not end in a mark |
| `Sanitizer.ReplaceDisallowed` | mp3_renamer.py:103-104 | position by position, an allowed character is kept and any other becomes `_` |
| `Sanitizer.CollapseUnderscores` | mp3_renamer.py:105 | no doubled underscore remains, the first character is kept, and only allowed characters come out of allowed input |
| `Sanitizer.CollapseMergesPair` | mp3_renamer.py:105 | dropping one `_` of a doubled `_` anywhere does not change the collapsed text, so with `Sanitizer.CollapseUnderscores` every run of `_` becomes exactly one |
| `Sanitizer.CollapseReplaced` | mp3_renamer.py:104-105 | replacing then collapsing keeps every allowed character other than `_` and turns each maximal run of other characters into exactly one `_` |
| `Sanitizer.SquashSeparates` | mp3_renamer.py:104-105 | between two kept characters there is one `_` exactly when something that is not kept stood between them, and nothing when they were adjacent |
| `Sanitizer.Cleaned` | mp3_renamer.py:101-106 | the cleaned text has only allowed characters, no `__`, no `_` at either end, and is no longer than the stripped text |
| `Sanitizer.CleanedSquashes` | mp3_renamer.py:101-106 | the cleaned text is the prepared text with kept characters kept, each run of other characters as one `_`, and `_` stripped from both ends |
| `Sanitizer.CleanFilename` | mp3_renamer.py:98-111 | total: always a non-empty stem of at most 100 allowed characters with no `__` and no `_` at either end; `untranscribable` for a missing or empty text or one that cleans to nothing; over 100 characters it is exactly the first 97 plus `...` |
| `Sanitizer.Truncate` | mp3_renamer.py:107-108 | an over-long cleaned text is cut to exactly 100 characters, its first 97 followed by `...`, and stays a safe stem |
| `Sanitizer.CleanedKeepsText` | mp3_renamer.py:101-106 | cleaning keeps every allowed character other than `_` of the prepared text, in order, and adds none |
| `Sanitizer.CleanedEmptyIff` | mp3_renamer.py:101-110 | nothing survives cleaning exactly when the prepared text has no allowed character other than `_` |
| `Sanitizer.CleanWithoutKeptChars` | mp3_renamer.py:104-111 | a text with no allowed character other than `_` yields `untranscribable` |
| `Sanitizer.CleanFixedPoints` | mp3_renamer.py:98-111 | a stem is left unchanged exactly when it is a safe stem with no space at either end and no terminal mark at the end |
| `Sanitizer.CleanNotIdempotent` | mp3_renamer.py:101-102 | `"hello ?"` cleans to `"hello "`, which cleaning changes again |
| `Renamer.RFind` | mp3_renamer.py:115 | the last index holding the character, or -1 when there is none |
| `Renamer.Suffix` | mp3_renamer.py:115 | `pathlib`'s suffix: non-empty exactly when the name's last dot is neither its first nor its last character, and then the name's tail from that dot on (a dot, at least one character, no further dot) |
| `Renamer.Stem` | mp3_renamer.py:115 | `pathlib`'s stem: a prefix of the name, non-empty for a non-empty name |
| `Renamer.StemThenSuffix` | mp3_renamer.py:115 | a file name is its stem followed by its suffix |
| `Renamer.NewStemKeepsSuffix` | mp3_renamer.py:115 | a non-empty new stem followed by the old suffix has that suffix, and that stem, again |
| `Renamer.RenameTarget` | mp3_renamer.py:115 | the target stays in the same directory; when the new name is non-empty and the old name has a suffix, the target's stem is the new name and its suffix is the old one |
| `Renamer.RenameFile` | mp3_renamer.py:113-120 | the target path when the rename succeeds, the original path when it fails; the directory never changes |
| `Renamer.ProcessFile` | mp3_renamer.py:145-154 | the original path when the cleaned stem is `untranscribable`, when the transcript is missing or empty, or when the rename fails; otherwise the same directory with the cleaned stem and the old suffix |
| `Gateway.ClipWindow` | mp3_renamer.py:37-41 | a start offset inside the audio gives the window from it for the duration, cut at the end of the audio; otherwise the whole audio |
| `Gateway.Clip` | mp3_renamer.py:229-233 | the clip is the audio's contiguous run from the start offset, of length min(duration, rest), or the whole audio when the offset is past its end |
| `Gateway.ClipGrowsWithDuration` | mp3_renamer.py:229-233 | a longer duration only extends the clip |
| `Gateway.WhisperText` | mp3_renamer.py:249-254 | a text exactly when the model produced one, and then exactly the raw text with surrounding whitespace stripped |
| `Gateway.Transcribe` | mp3_renamer.py:26-34 | Whisper's stripped text when Whisper is in use and its text is non-empty, Google's answer otherwise |
| `Gateway.SelectEngine` | mp3_renamer.py:361-384 | abort exactly for engine `whisper` with no model; Whisper in use exactly when the model is loaded for `whisper`, or for `both` with ffmpeg; Google alone for `google` and for `both` without ffmpeg or model |

## Left out

- `process_directory` (directory check, globbing, the per-file loop): filesystem enumeration. One file's path is modelled by `Renamer.ProcessFile`. `convert_mp3_to_wav` is not guarded, so a decoding failure ends the whole batch; no batch property is stated.
- `convert_mp3_to_wav`, audio export and `normalize`, temporary files, and the Whisper and Google recognisers: foreign libraries and I/O. Their outcomes are inputs: the raw Whisper text, Google's answer, the audio as a sequence of milliseconds.
- `init_whisper_model`, the lazily loaded global model, CUDA detection, `fix_ssl_certificate`, `check_ffmpeg` and `run_mac_fix.py`: process state and environment repair through subprocesses. Their results enter `Gateway.SelectEngine` as two `bool`s.
- Gateway.Clip: is the clip both engines cut, and Whisper transcribes all of it (mp3_renamer.py:234-246). On the Google path, `adjust_for_ambient_noise(source, duration=0.5)` at mp3_renamer.py:47 reads from the same audio stream, so `record(source)` at :48 returns the clip without roughly its first half second. Google therefore hears less than `Clip`. This calibration is not modelled.
- Gateway.Transcribe: treats Google's outcome as a given `Option<string>`. In `transcribe_audio` the audio loading, normalisation, temporary export and recording at mp3_renamer.py:36-48 run outside the `try` at :49, so a failure there raises instead of returning None. The exception leaves `process_mp3_file` and `process_directory` and ends the whole batch at the handler at mp3_renamer.py:395-397. Exceptions are not modelled.
- `int(start_time * 1000)` and `int(duration * 1000)`: floating point. `Gateway.ClipWindow` takes natural milliseconds, so negative offsets or durations are not modelled.
- The guard `start_time > 0 or duration < float('inf')` at mp3_renamer.py:227: the CLI duration is an integer, so it always holds and Whisper always transcribes the clip.
- `Path.rename` and its platform-dependent collision behaviour: its success or failure is the `renamed` input.
- Console output, verbose logging, `KeyboardInterrupt` and the top-level exception handler in `main`.

=== FILE: extractor.dfy ===
/** The phrase extractor of mp3_renamer.py: `extract_first_sentence`, the
    "first N words" bypass, and the choice between the two made in
    `process_mp3_file`. */
module Extractor {
  import opened Maybe
  import opened Text
  import opened Patterns

  /** Sentence boundaries, tried in this order. */
  const SentencePatterns: seq<Pattern> := [TerminalThenCapital, TerminalThenSpace, TerminalMark]

  /** Natural break points, tried in this order when no sentence boundary exists. */
  const NaturalBreaks: seq<Pattern> := [CommaThenSpace, SpacedWord("and"), SpacedWord("but"), SpacedWord("so")]

  /** A natural break counts only if it starts after this index. */
  const MinBreakStart := 10

  const MaxWords := 12
  const MaxChars := 50

  /** Every sentence pattern starts with a terminal mark. */
  lemma SentenceMatchIsTerminal(k: nat, t: string, i: nat)
    requires k < |SentencePatterns| && MatchesAt(SentencePatterns[k], t, i)
    ensures i < |t| && IsTerminal(t[i])
  {
  }

  /** `extract_first_sentence` after the text has been normalised: the
      first sentence boundary, if any, ends the phrase. */
  function Shorten(t: string): (r: string)
    ensures IsTrimmed(r, IsSpace)
    ensures HasTerminal(t) ==> r != [] && IsTerminal(r[|r| - 1])
  {
    match FirstAccepted(SentencePatterns, t, -1)
    case Some(m) =>
      SentenceMatchIsTerminal(m.0, t, m.1);
      StripKeepsLast(t[..m.1 + 1]);
      Strip(t[..m.1 + 1])
    case None =>
      SentenceAtTerminal(t);
      CutAtBreak(t)
  }

  /** Without a sentence boundary, the first accepted natural break cuts the
      phrase. */
  function CutAtBreak(t: string): (r: string)
    ensures IsTrimmed(r, IsSpace)
    ensures var m := FirstAccepted(NaturalBreaks, t, MinBreakStart);
      m.Some? ==> |r| <= m.value.1
  {
    match FirstAccepted(NaturalBreaks, t, MinBreakStart)
    case Some(m) => Strip(t[..m.1])
    case None => CapLength(t)
  }

  /** Without a boundary or a break: at most 12 words and an ellipsis, or at
      most 50 characters. */
  function CapLength(t: string): (r: string)
    ensures IsTrimmed(r, IsSpace)
    ensures |Words(t)| > MaxWords ==> |r| >= |Ellipsis| && r[|r| - |Ellipsis|..] == Ellipsis
    ensures |Words(t)| <= MaxWords ==> |r| <= MaxChars
  {
    var ws := Words(t);
    if |ws| > MaxWords then
      var head := Strip(Join(ws[..MaxWords]));
      assert (head + Ellipsis)[|head + Ellipsis| - 1] == '.';
      assert head != [] ==> (head + Ellipsis)[0] == head[0];
      head + Ellipsis
    else Strip(t[..Min(|t|, MaxChars)])
  }

  /** `extract_first_sentence(text)`: no phrase for a missing or empty
      transcript, otherwise a whitespace-trimmed phrase. */
  function ExtractFirstSentence(text: Option<string>): (r: Option<string>)
    ensures r.None? <==> !IsTruthy(text)
    ensures r.Some? ==> IsTrimmed(r.value, IsSpace)
  {
    if !IsTruthy(text) then None else Some(Shorten(Normalise(text.value)))
  }

  /** Whether the normalised text contains a terminal mark anywhere. */
  predicate HasTerminal(t: string) {
    exists k :: 0 <= k < |t| && IsTerminal(t[k])
  }

  /** A terminal mark anywhere makes the bare-mark pattern, and so some
      sentence pattern, accepted. */
  lemma SentenceAtTerminal(t: string)
    ensures HasTerminal(t) ==> FirstAccepted(SentencePatterns, t, -1).Some?
  {
    if HasTerminal(t) {
      var k :| 0 <= k < |t| && IsTerminal(t[k]);
      assert MatchesAt(TerminalMark, t, k);
      assert Accepted(SentencePatterns[2], t, -1);
    }
  }

  /** Without a terminal mark no sentence pattern is accepted. */
  lemma NoSentenceWithoutTerminal(t: string)
    requires !HasTerminal(t)
    ensures FirstAccepted(SentencePatterns, t, -1).None?
  {
    var r := FirstAccepted(SentencePatterns, t, -1);
    if r.Some? {
      SentenceMatchIsTerminal(r.value.0, t, r.value.1);
      assert false;
    }
  }

  /** The sentence case on normalised text: the phrase runs through the
      matched mark. */
  lemma ShortenAtSentence(t: string, k: nat, i: nat)
    requires IsNormalised(t)
    requires FirstAccepted(SentencePatterns, t, -1) == Some((k, i))
    ensures Shorten(t) == t[..i + 1] && IsTerminal(t[i])
  {
    SentenceMatchIsTerminal(k, t, i);
    StripNormalisedPrefix(t, i + 1);
  }

  /** On normalised text holding a terminal mark, some sentence pattern is
      accepted, so the phrase ends in a mark. */
  lemma ShortenWithTerminal(t: string, k: nat)
    requires IsNormalised(t) && k < |t| && IsTerminal(t[k])
    ensures Shorten(t) <= t && |Shorten(t)| > 0 && IsTerminal(Shorten(t)[|Shorten(t)| - 1])
  {
    assert MatchesAt(TerminalMark, t, k);
    assert Accepted(SentencePatterns[2], t, -1);
    var m := FirstAccepted(SentencePatterns, t, -1);
    assert m.Some?;
    ShortenAtSentence(t, m.value.0, m.value.1);
  }

  /** If the normalised text holds a terminal mark, the phrase is a prefix of
      it that ends in a terminal mark. */
  lemma ExtractEndsAtTerminal(text: string, k: nat)
    requires text != []
    requires k < |Normalise(text)| && IsTerminal(Normalise(text)[k])
    ensures var r := ExtractFirstSentence(Some(text)).value;
      r <= Normalise(text) && |r| > 0 && IsTerminal(r[|r| - 1])
  {
    ShortenWithTerminal(Normalise(text), k);
  }

  /** A mark followed by whitespace and a capital wins, even over an earlier
      bare mark: the phrase runs through the leftmost such mark. */
  lemma ExtractAtCapitalBoundary(text: string, i: nat)
    requires text != []
    requires MatchesAt(TerminalThenCapital, Normalise(text), i)
    requires forall j: nat :: j < i ==> !MatchesAt(TerminalThenCapital, Normalise(text), j)
    ensures ExtractFirstSentence(Some(text)) == Some(Normalise(text)[..i + 1])
  {
    var t := Normalise(text);
    SearchFinds(TerminalThenCapital, t, i);
    assert Accepted(SentencePatterns[0], t, -1);
    assert FirstAccepted(SentencePatterns, t, -1) == Some((0, i));
    ShortenAtSentence(t, 0, i);
  }

  /** With no capital boundary anywhere, the leftmost mark followed by
      whitespace ends the phrase. */
  lemma ExtractAtSpaceBoundary(text: string, i: nat)
    requires text != []
    requires forall j: nat :: !MatchesAt(TerminalThenCapital, Normalise(text), j)
    requires MatchesAt(TerminalThenSpace, Normalise(text), i)
    requires forall j: nat :: j < i ==> !MatchesAt(TerminalThenSpace, Normalise(text), j)
    ensures ExtractFirstSentence(Some(text)) == Some(Normalise(text)[..i + 1])
  {
    var t := Normalise(text);
    SearchFinds(TerminalThenSpace, t, i);
    assert !Accepted(SentencePatterns[0], t, -1);
    assert Accepted(SentencePatterns[1], t, -1);
    assert FirstAccepted(SentencePatterns, t, -1) == Some((1, i));
    ShortenAtSentence(t, 1, i);
  }

  /** With neither of the first two boundaries, the leftmost bare mark ends
      the phrase. */
  lemma ExtractAtBareMark(text: string, i: nat)
    requires text != []
    requires forall j: nat :: !MatchesAt(TerminalThenCapital, Normalise(text), j)
    requires forall j: nat :: !MatchesAt(TerminalThenSpace, Normalise(text), j)
    requires i < |Normalise(text)| && IsTerminal(Normalise(text)[i])
    requires forall j :: 0 <= j < i ==> !IsTerminal(Normalise(text)[j])
    ensures ExtractFirstSentence(Some(text)) == Some(Normalise(text)[..i + 1])
  {
    var t := Normalise(text);
    SearchFinds(TerminalMark, t, i);
    assert !Accepted(SentencePatterns[0], t, -1);
    assert !Accepted(SentencePatterns[1], t, -1);
    assert Accepted(SentencePatterns[2], t, -1);
    assert FirstAccepted(SentencePatterns, t, -1) == Some((2, i));
    ShortenAtSentence(t, 2, i);
  }

  /** The break case on normalised text: the cut phrase is the text before
      the break, less a trailing space. */
  lemma CutAtBreakIs(t: string, k: nat, i: nat)
    requires IsNormalised(t)
    requires FirstAccepted(NaturalBreaks, t, MinBreakStart) == Some((k, i))
    ensures CutAtBreak(t) <= t && |CutAtBreak(t)| >= MinBreakStart
    ensures NotSpace(t[i - 1]) ==> CutAtBreak(t) == t[..i]
    ensures IsSpace(t[i - 1]) ==> k == 0 && CutAtBreak(t) == t[..i - 1]
  {
    StripNormalisedPrefix(t, i);
  }

  /** Without a terminal mark, the first break pattern whose leftmost match
      starts after index 10 cuts the phrase just before the break; only a
      comma can leave one trailing space to strip, so the phrase keeps at
      least 10 characters. */
  lemma ExtractAtBreak(text: string, k: nat, i: nat)
    requires text != []
    requires !HasTerminal(Normalise(text))
    requires k < |NaturalBreaks|
    requires forall k' :: 0 <= k' < k ==> !Accepted(NaturalBreaks[k'], Normalise(text), MinBreakStart)
    requires MatchesAt(NaturalBreaks[k], Normalise(text), i) && i > MinBreakStart
    requires forall j: nat :: j < i ==> !MatchesAt(NaturalBreaks[k], Normalise(text), j)
    ensures var t := Normalise(text);
      var r := ExtractFirstSentence(Some(text)).value;
      && r <= t
      && |r| >= MinBreakStart
      && (NotSpace(t[i - 1]) ==> r == t[..i])
      && (IsSpace(t[i - 1]) ==> k == 0 && r == t[..i - 1])
  {
    var t := Normalise(text);
    NoSentenceWithoutTerminal(t);
    SearchFinds(NaturalBreaks[k], t, i);
    assert Accepted(NaturalBreaks[k], t, MinBreakStart);
    assert FirstAccepted(NaturalBreaks, t, MinBreakStart) == Some((k, i));
    CutAtBreakIs(t, k, i);
  }

  /** The word cap on normalised text of more than 12 words. */
  lemma CapLengthWords(t: string)
    requires IsNormalised(t) && |Words(t)| > MaxWords
    ensures CapLength(t) == Join(Words(t)[..MaxWords]) + Ellipsis
  {
    var head := Words(t)[..MaxWords];
    JoinNormalised(head);
    StripNormalised(Join(head));
  }

  /** With no sentence boundary and no accepted break, a text of more than
      12 words yields its first 12 words joined by single spaces, then "...". */
  lemma ExtractCapsWords(text: string)
    requires text != []
    requires !HasTerminal(Normalise(text))
    requires forall k :: 0 <= k < |NaturalBreaks| ==> !Accepted(NaturalBreaks[k], Normalise(text), MinBreakStart)
    requires |Words(text)| > MaxWords
    ensures ExtractFirstSentence(Some(text)) == Some(Join(Words(text)[..MaxWords]) + Ellipsis)
  {
    var t := Normalise(text);
    NoSentenceWithoutTerminal(t);
    assert FirstAccepted(NaturalBreaks, t, MinBreakStart).None?;
    CapLengthWords(t);
  }

  /** The character cap on normalised text of at most 12 words. */
  lemma CapLengthChars(t: string)
    requires IsNormalised(t) && |Words(t)| <= MaxWords
    ensures CapLength(t) <= t && |CapLength(t)| <= MaxChars
    ensures |CapLength(t)| + 1 >= Min(|t|, MaxChars)
    ensures |t| <= MaxChars ==> CapLength(t) == t
    ensures |t| > MaxChars ==>
      CapLength(t) == if IsSpace(t[MaxChars - 1]) then t[..MaxChars - 1] else t[..MaxChars]
  {
    StripNormalisedPrefix(t, Min(|t|, MaxChars));
    assert t[..|t|] == t;
  }

  /** Otherwise the phrase is the text's first 50 characters, less a
      trailing space: the whole text when it is no longer than 50. */
  lemma ExtractShortText(text: string)
    requires text != []
    requires !HasTerminal(Normalise(text))
    requires forall k :: 0 <= k < |NaturalBreaks| ==> !Accepted(NaturalBreaks[k], Normalise(text), MinBreakStart)
    requires |Words(text)| <= MaxWords
    ensures var t := Normalise(text);
      var r := ExtractFirstSentence(Some(text)).value;
      && r <= t
      && |r| <= MaxChars
      && |r| + 1 >= Min(|t|, MaxChars)
      && (|t| <= MaxChars ==> r == t)
      && (|t| > MaxChars ==> r == if IsSpace(t[MaxChars - 1]) then t[..MaxChars - 1] else t[..MaxChars])
  {
    var t := Normalise(text);
    NoSentenceWithoutTerminal(t);
    assert FirstAccepted(NaturalBreaks, t, MinBreakStart).None?;
    CapLengthChars(t);
  }

  // The example lemmas take their text as a parameter fixed by `requires`:
  // a literal argument would make the verifier unfold every function on it.
  const ExampleText := "Hello world. This is a test."

  lemma ExampleNormalised(t: string)
    requires t == ExampleText
    ensures Normalise(t) == t
  {
    assert IsNormalised(t) by {
      forall k | 0 <= k < |t| && IsSpace(t[k])
        ensures t[k] == ' ' && k + 1 < |t| && NotSpace(t[k + 1])
      {
        assert k == 5 || k == 12 || k == 17 || k == 20 || k == 22;
      }
    }
    NormaliseFixedPoints(t);
  }

  lemma ExampleBoundary(t: string)
    requires t == ExampleText
    ensures MatchesAt(TerminalThenCapital, t, 11)
    ensures forall j: nat :: j < 11 ==> !MatchesAt(TerminalThenCapital, t, j)
  {
    assert RunEnd(t, 12, IsSpace) == 13;
    forall j: nat | j < 11
      ensures !MatchesAt(TerminalThenCapital, t, j)
    {
      assert !IsTerminal(t[j]);
    }
  }

  lemma ExampleCut(t: string)
    requires t == ExampleText
    ensures ExtractFirstSentence(Some(t)) == Some(t[..12])
  {
    ExampleNormalised(t);
    ExampleBoundary(t);
    ExtractAtCapitalBoundary(t, 11);
  }

  /** "Hello world. This is a test." yields "Hello world.". */
  lemma ExtractExample(t: string)
    requires t == ExampleText
    ensures ExtractFirstSentence(Some(t)) == Some("Hello world.")
  {
    ExampleCut(t);
    ExamplePrefix(t);
  }

  lemma ExamplePrefix(t: string)
    requires t == ExampleText
    ensures t[..12] == "Hello world."
  {
  }

  /** "short text", with no mark, no break after index 10 and at most 50
      characters, is kept whole. */
  lemma ShortExample(t: string)
    requires t == "short text"
    ensures ExtractFirstSentence(Some(t)) == Some(t)
  {
    var ws := ["short", "text"];
    assert IsWord(ws[0]) && IsWord(ws[1]);
    assert Join(ws) == t;
    WordsOfJoin(ws);
    JoinNormalised(ws);
    NormaliseFixedPoints(t);
    assert !HasTerminal(t);
    forall k | 0 <= k < |NaturalBreaks|
      ensures !Accepted(NaturalBreaks[k], t, MinBreakStart)
    {
    }
    ExtractShortText(t);
  }

  /** The stop index of Python's slice `words[:n]` on a list of length `len`. */
  function SliceStop(n: int, len: nat): (e: nat)
    ensures e <= len
  {
    if n >= 0 then Min(n, len) else Max(0, len + n)
  }

  /** The `--first N` bypass: more than N words are cut to the first N
      (Python slicing, so a negative N drops the last -N words) and joined
      by single spaces; otherwise the transcript is kept verbatim. */
  function FirstWords(transcript: string, n: int): (r: string)
    ensures var ws := Words(transcript);
      && (|ws| > n ==> Words(r) == ws[..SliceStop(n, |ws|)] && IsNormalised(r))
      && (|ws| > n >= 0 ==> |Words(r)| == n)
      && (n < 0 ==> |Words(r)| == Max(0, |ws| + n))
      && (|ws| <= n ==> r == transcript)
  {
    var ws := Words(transcript);
    if |ws| > n then
      var head := ws[..SliceStop(n, |ws|)];
      WordsOfJoin(head);
      JoinNormalised(head);
      Join(head)
    else transcript
  }

  /** "a b c d e" with N = 3 gives "a b c"; with N = 10 the transcript is
      kept as it is. */
  lemma FirstWordsExample()
    ensures FirstWords("a b c d e", 3) == "a b c"
    ensures FirstWords("a b c d e", 10) == "a b c d e"
  {
    var ws := ["a", "b", "c", "d", "e"];
    assert forall i :: 0 <= i < |ws| ==> IsWord(ws[i]);
    assert Join(ws) == "a b c d e";
    WordsOfJoin(ws);
    assert ws[..SliceStop(3, 5)] == ["a", "b", "c"];
    assert Join(["a", "b", "c"]) == "a b c";
  }

  /** The phrase `process_mp3_file` hands to the sanitizer: the first-N-words
      bypass applies only when N is given and the transcript is non-empty;
      in every other case the sentence extractor decides. */
  function ChoosePhrase(transcript: Option<string>, firstN: Option<int>): (r: Option<string>)
    ensures !IsTruthy(transcript) ==> r.None?
    ensures IsTruthy(transcript) ==> r.Some?
    ensures firstN.None? ==> r == ExtractFirstSentence(transcript)
    ensures firstN.Some? && IsTruthy(transcript) ==> r == Some(FirstWords(transcript.value, firstN.value))
  {
    if firstN.Some? && IsTruthy(transcript) then Some(FirstWords(transcript.value, firstN.value))
    else ExtractFirstSentence(transcript)
  }
}

=== FILE: gateway.dfy ===
/** The transcription gateway of mp3_renamer.py, without the engines
    themselves: the clip window both engines cut from the audio, the
    Whisper-then-Google fallback of `transcribe_audio`, and the engine
    selection `main` performs before processing starts. */
module Gateway {
  import opened Maybe
  import opened Text

  /** A half-open range of milliseconds `[start, end)`. */
  datatype Window = Window(start: nat, end: nat)

  /** The window cut from an audio of `lengthMs` milliseconds: from the start
      offset for at most the duration when the offset lies inside the audio,
      and the whole audio otherwise. */
  function ClipWindow(startMs: nat, durationMs: nat, lengthMs: nat): (w: Window)
    ensures w.start <= w.end <= lengthMs
    ensures startMs < lengthMs ==> w.start == startMs && w.end - w.start == Min(durationMs, lengthMs - startMs)
    ensures startMs >= lengthMs ==> w == Window(0, lengthMs)
  {
    if startMs < lengthMs then Window(startMs, Min(startMs + durationMs, lengthMs))
    else Window(0, lengthMs)
  }

  /** The clip both engines cut from the audio, one element per millisecond. */
  function Clip<T>(audio: seq<T>, startMs: nat, durationMs: nat): (c: seq<T>)
    ensures |c| <= |audio|
    ensures startMs < |audio| ==> |c| == Min(durationMs, |audio| - startMs)
    ensures startMs < |audio| ==> forall k :: 0 <= k < |c| ==> c[k] == audio[startMs + k]
    ensures startMs >= |audio| ==> c == audio
  {
    var w := ClipWindow(startMs, durationMs, |audio|);
    audio[w.start..w.end]
  }

  /** A longer duration only extends the clip: the shorter clip is a prefix. */
  lemma ClipGrowsWithDuration<T>(audio: seq<T>, startMs: nat, d1: nat, d2: nat)
    requires d1 <= d2
    ensures Clip(audio, startMs, d1) <= Clip(audio, startMs, d2)
  {
    var c1, c2 := Clip(audio, startMs, d1), Clip(audio, startMs, d2);
    if startMs < |audio| {
      assert forall k :: 0 <= k < |c1| ==> c1[k] == c2[k];
    }
  }

  /** What `transcribe_with_whisper` yields from the model's raw text: the text
      stripped, or nothing when the model is missing or raised. */
  function WhisperText(raw: Option<string>): (r: Option<string>)
    ensures r.Some? <==> raw.Some?
    ensures r.Some? ==> IsTrimmed(r.value, IsSpace) && |r.value| <= |raw.value|
    ensures r.Some? ==> r.value == Strip(raw.value)
  {
    if raw.Some? then Some(Strip(raw.value)) else None
  }

  /** `transcribe_audio`: Whisper's stripped text when Whisper is in use and
      produced a non-empty text, and Google's answer in every other case. */
  function Transcribe(useWhisper: bool, whisperRaw: Option<string>, google: Option<string>): (r: Option<string>)
    ensures r == google || r == WhisperText(whisperRaw)
    ensures useWhisper && IsTruthy(WhisperText(whisperRaw)) ==> r == WhisperText(whisperRaw) && IsTrimmed(r.value, IsSpace)
    ensures !useWhisper || !IsTruthy(WhisperText(whisperRaw)) ==> r == google
  {
    var w := WhisperText(whisperRaw);
    if useWhisper && IsTruthy(w) then w else google
  }

  datatype Engine = WhisperEngine | GoogleEngine | BothEngines

  /** What `main` decides: stop, or process the directory with or without
      Whisper. */
  datatype Plan = Abort | Run(useWhisper: bool)

  /** Whether `main` tries to load the Whisper model for this engine choice
      and ffmpeg check. */
  predicate LoadsModel(engine: Engine, ffmpegOk: bool) {
    engine == WhisperEngine || (engine == BothEngines && ffmpegOk)
  }

  /** The engine selection in `main`, step by step: "both" falls back to
      Google when ffmpeg is missing or the model does not load; "whisper"
      carries on without ffmpeg but stops when the model does not load;
      "google" never touches Whisper. */
  function SelectEngine(engine: Engine, ffmpegOk: bool, modelLoads: bool): (plan: Plan)
    ensures plan.Abort? <==> engine == WhisperEngine && !modelLoads
    ensures plan == Run(true) <==> LoadsModel(engine, ffmpegOk) && modelLoads
    ensures plan == Run(false) <==> engine == GoogleEngine || (engine == BothEngines && !(ffmpegOk && modelLoads))
  {
    var useWhisper := engine == WhisperEngine || (engine == BothEngines && ffmpegOk);
    if !useWhisper then Run(false)
    else if modelLoads then Run(true)
    else if engine == BothEngines then Run(false)
    else Abort
  }
}

=== FILE: maybe.dfy ===
/** Optional values: Python's `None` versus a present value. */
module Maybe {

  datatype Option<T> = None | Some(value: T)

}

=== FILE: patterns.dfy ===
/** The regular expressions `extract_first_sentence` searches for, as a
    datatype with a match predicate, and `re.search` as the leftmost match. */
module Patterns {
  import opened Maybe
  import opened Text

  datatype Pattern =
    | TerminalThenCapital      // ([.!?])\s+[A-Z]
    | TerminalThenSpace        // ([.!?])\s+
    | TerminalMark             // ([.!?])
    | CommaThenSpace           // (,\s+)
    | SpacedWord(word: string) // (\s+word\s+)

  predicate IsAsciiUpper(c: char) {
    'A' <= c <= 'Z'
  }

  /** Whether a match of `p` starts at index `i` of `s`. A `\s+` that must be
      followed by a non-space literal can only end where the whitespace run
      ends, so backtracking never finds a second way to match. */
  predicate MatchesAt(p: Pattern, s: string, i: nat)
    ensures MatchesAt(p, s, i) ==> i < |s|
    ensures MatchesAt(p, s, i) && (p.TerminalThenCapital? || p.TerminalThenSpace?) ==>
      IsTerminal(s[i]) && i + 1 < |s| && IsSpace(s[i + 1])
    ensures MatchesAt(p, s, i) && p.SpacedWord? ==> IsSpace(s[i]) && i + |p.word| + 1 < |s|
  {
    i < |s| &&
    match p
    case TerminalThenCapital =>
      var j := RunEnd(s, i + 1, IsSpace);
      IsTerminal(s[i]) && i + 1 < j < |s| && IsAsciiUpper(s[j])
    case TerminalThenSpace =>
      IsTerminal(s[i]) && i + 1 < |s| && IsSpace(s[i + 1])
    case TerminalMark =>
      IsTerminal(s[i])
    case CommaThenSpace =>
      s[i] == ',' && i + 1 < |s| && IsSpace(s[i + 1])
    case SpacedWord(w) =>
      var j := RunEnd(s, i, IsSpace);
      IsSpace(s[i]) && j + |w| < |s| && s[j..j + |w|] == w && IsSpace(s[j + |w|])
  }

  /** The leftmost match of `p` at or after index `i`. */
  function SearchFrom(p: Pattern, s: string, i: nat): (r: Option<nat>)
    requires i <= |s|
    ensures r.Some? ==> i <= r.value && MatchesAt(p, s, r.value)
    ensures r.Some? ==> forall j: nat :: i <= j < r.value ==> !MatchesAt(p, s, j)
    ensures r.None? ==> forall j: nat :: i <= j ==> !MatchesAt(p, s, j)
    decreases |s| - i
  {
    if i == |s| then None
    else if MatchesAt(p, s, i) then Some(i)
    else SearchFrom(p, s, i + 1)
  }

  /** `re.search(p, s).start()`: the start of the leftmost match, if any. */
  function Search(p: Pattern, s: string): (r: Option<nat>)
    ensures r.Some? ==> MatchesAt(p, s, r.value)
    ensures r.Some? ==> forall j: nat :: j < r.value ==> !MatchesAt(p, s, j)
    ensures r.None? ==> forall j: nat :: !MatchesAt(p, s, j)
  {
    SearchFrom(p, s, 0)
  }

  /** The leftmost match is the only match with nothing to its left. */
  lemma SearchFinds(p: Pattern, s: string, i: nat)
    requires MatchesAt(p, s, i)
    requires forall j: nat :: j < i ==> !MatchesAt(p, s, j)
    ensures Search(p, s) == Some(i)
  {
  }

  /** A search result that the caller accepts: one that starts after `after`. */
  predicate Accepted(p: Pattern, s: string, after: int) {
    var m := Search(p, s);
    m.Some? && m.value > after
  }

  /** The loop `for pattern in ps: m = re.search(pattern, s); if m and
      m.start() > after: ...`: the index of the first pattern whose leftmost
      match is accepted, and where that match starts. */
  function FirstAccepted(ps: seq<Pattern>, s: string, after: int): (r: Option<(nat, nat)>)
    ensures r.Some? ==> r.value.0 < |ps| && Search(ps[r.value.0], s) == Some(r.value.1)
    ensures r.Some? ==> after < r.value.1 < |s|
    ensures r.Some? ==> forall k :: 0 <= k < r.value.0 ==> !Accepted(ps[k], s, after)
    ensures r.None? ==> forall k :: 0 <= k < |ps| ==> !Accepted(ps[k], s, after)
  {
    if ps == [] then None
    else if Accepted(ps[0], s, after) then Some((0, Search(ps[0], s).value))
    else
      match FirstAccepted(ps[1..], s, after)
      case None => None
      case Some((k, i)) => Some((k + 1, i))
  }
}

=== FILE: renamer.dfy ===
/** The per-file decision of mp3_renamer.py: `rename_mp3_file` and the part of
    `process_mp3_file` that turns a transcript into the file's new path. A
    path is its parent directory and its final component, as in `pathlib`. */
module Renamer {
  import opened Maybe
  import opened Text
  import opened Extractor
  import opened Sanitizer

  datatype FilePath = FilePath(parent: string, name: string)

  /** `s.rfind(c)`: the last index holding `c`, or -1. */
  function RFind(s: string, c: char): (i: int)
    ensures -1 <= i < |s|
    ensures i >= 0 ==> s[i] == c && forall k :: i < k < |s| ==> s[k] != c
    ensures i == -1 ==> forall k :: 0 <= k < |s| ==> s[k] != c
  {
    if s == [] then -1
    else if s[|s| - 1] == c then |s| - 1
    else RFind(s[..|s| - 1], c)
  }

  /** A last occurrence is what `rfind` reports. */
  lemma RFindIs(s: string, c: char, i: nat)
    requires i < |s| && s[i] == c
    requires forall k :: i < k < |s| ==> s[k] != c
    ensures RFind(s, c) == i
  {
  }

  /** Whether the last dot of `name` splits it into a non-empty stem and a
      suffix with something after the dot. */
  predicate HasSuffix(name: string) {
    var i := RFind(name, '.');
    0 < i < |name| - 1
  }

  /** `PurePath.suffix`: from the last dot on, unless that dot is the first
      or the last character. */
  function Suffix(name: string): (suf: string)
    ensures suf == [] || (|suf| >= 2 && suf[0] == '.' && forall k :: 1 <= k < |suf| ==> suf[k] != '.')
    ensures suf != [] <==> exists i :: 0 < i < |name| - 1 && name[i] == '.' && forall k :: i < k < |name| ==> name[k] != '.'
    ensures suf != [] ==> |suf| < |name| && suf == name[|name| - |suf|..]
  {
    if HasSuffix(name) then name[RFind(name, '.')..] else []
  }

  /** `PurePath.stem`: the name without its suffix. */
  function Stem(name: string): (st: string)
    ensures st <= name
    ensures name != [] ==> st != []
  {
    if HasSuffix(name) then name[..RFind(name, '.')] else name
  }

  /** A name is its stem followed by its suffix. */
  lemma StemThenSuffix(name: string)
    ensures Stem(name) + Suffix(name) == name
  {
    if HasSuffix(name) {
      var i := RFind(name, '.');
      assert name == name[..i] + name[i..];
    }
  }

  /** Giving a file a new non-empty stem keeps its suffix, and the new name's
      stem is exactly the new stem. */
  lemma NewStemKeepsSuffix(name: string, stem: string)
    ensures stem != [] && Suffix(name) != [] ==> Suffix(stem + Suffix(name)) == Suffix(name)
    ensures stem != [] && Suffix(name) != [] ==> Stem(stem + Suffix(name)) == stem
  {
    var suf := Suffix(name);
    if stem != [] && suf != [] {
      var t := stem + suf;
      forall k | |stem| < k < |t|
        ensures t[k] != '.'
      {
        assert t[k] == suf[k - |stem|];
      }
      RFindIs(t, '.', |stem|);
      assert t[|stem|..] == suf && t[..|stem|] == stem;
    }
  }

  /** Where `rename_mp3_file` moves a file: same directory, the new stem
      followed by the old suffix. */
  function RenameTarget(path: FilePath, newName: string): (target: FilePath)
    ensures target.parent == path.parent
    ensures newName != [] && Suffix(path.name) != [] ==>
      Stem(target.name) == newName && Suffix(target.name) == Suffix(path.name)
  {
    NewStemKeepsSuffix(path.name, newName);
    FilePath(path.parent, newName + Suffix(path.name))
  }

  /** `rename_mp3_file`: the target when the filesystem accepts the rename
      (`renamed`), the original path when it raises. */
  function RenameFile(path: FilePath, newName: string, renamed: bool): (r: FilePath)
    ensures r.parent == path.parent
    ensures renamed ==> r.name == newName + Suffix(path.name)
    ensures !renamed ==> r == path
  {
    if renamed then RenameTarget(path, newName) else path
  }

  /** The path `process_mp3_file` returns for a file whose transcription gave
      `transcript`: the sentinel stem means no rename; otherwise the file is
      renamed to the cleaned phrase, keeping its directory and suffix, unless
      the rename fails. */
  function ProcessFile(path: FilePath, transcript: Option<string>, firstN: Option<int>, renamed: bool): (r: FilePath)
    ensures var stem := CleanFilename(ChoosePhrase(transcript, firstN));
      && r.parent == path.parent
      && (stem == Sentinel || !renamed ==> r == path)
      && (stem != Sentinel && renamed ==> r.name == stem + Suffix(path.name))
      && (stem != Sentinel && renamed && Suffix(path.name) != [] ==>
            Stem(r.name) == stem && Suffix(r.name) == Suffix(path.name))
    ensures !IsTruthy(transcript) ==> r == path
  {
    var newName := CleanFilename(ChoosePhrase(transcript, firstN));
    if newName == [] || newName == Sentinel then path
    else RenameFile(path, newName, renamed)
  }
}

=== FILE: sanitizer.dfy ===
/** The filename sanitizer of mp3_renamer.py, `clean_filename`. */
module Sanitizer {
  import opened Maybe
  import opened Text
  import opened Seqs

  /** The stem used when no usable text remains. */
  const Sentinel := "untranscribable"

  const MaxLen := 100

  /** Characters kept before the ellipsis when a stem is cut. */
  const KeepLen := 97

  /** `-_.() ` and the ASCII letters and digits. */
  predicate IsAllowed(c: char) {
    || c == '-' || c == '_' || c == '.' || c == '(' || c == ')' || c == ' '
    || 'a' <= c <= 'z' || 'A' <= c <= 'Z' || '0' <= c <= '9'
  }

  predicate IsUnderscore(c: char) {
    c == '_'
  }

  predicate NotUnderscore(c: char) {
    c != '_'
  }

  /** An allowed character other than the substitute `_`. */
  predicate IsKept(c: char) {
    IsAllowed(c) && c != '_'
  }

  predicate NoDoubleUnderscore(s: string) {
    forall k :: 0 <= k < |s| - 1 ==> !(s[k] == '_' && s[k + 1] == '_')
  }

  predicate AllAllowed(s: string) {
    forall k :: 0 <= k < |s| ==> IsAllowed(s[k])
  }

  /** What `clean_filename` promises of every stem it returns. */
  predicate IsSafeStem(s: string) {
    && 0 < |s| <= MaxLen
    && AllAllowed(s)
    && NoDoubleUnderscore(s)
    && s[0] != '_'
    && s[|s| - 1] != '_'
  }

  function Substitute(c: char): char {
    if IsAllowed(c) then c else '_'
  }

  /** Every disallowed character becomes `_`, position by position. */
  function ReplaceDisallowed(s: string): (r: string)
    ensures |r| == |s|
    ensures forall k :: 0 <= k < |s| ==> r[k] == Substitute(s[k])
  {
    if s == [] then [] else [Substitute(s[0])] + ReplaceDisallowed(s[1..])
  }

  /** `re.sub(r'_+', '_', s)`: each run of underscores becomes one. */
  function CollapseUnderscores(s: string): (r: string)
    ensures |r| <= |s|
    ensures NoDoubleUnderscore(r)
    ensures |s| > 0 ==> |r| > 0 && r[0] == s[0]
    ensures AllAllowed(s) ==> AllAllowed(r)
  {
    if |s| < 2 then s
    else if s[0] == '_' && s[1] == '_' then CollapseUnderscores(s[1..])
    else
      assert AllAllowed(s) ==> AllAllowed(s[1..]) by {
        if AllAllowed(s) {
          forall k | 0 <= k < |s[1..]| ensures IsAllowed(s[1..][k]) {
            assert s[1..][k] == s[k + 1];
          }
        }
      }
      [s[0]] + CollapseUnderscores(s[1..])
  }

  /** The text after `strip()` and `re.sub(r'[.!?]+$', '', text)`: once the
      whitespace is gone no newline is left for `$` to match before, so the
      substitution drops exactly the trailing run of terminal marks. */
  function Prepared(s: string): (r: string)
    ensures |r| <= |s|
    ensures r <= Strip(s)
    ensures r == [] || (NotSpace(r[0]) && !IsTerminal(r[|r| - 1]))
    ensures forall k :: |r| <= k < |Strip(s)| ==> IsTerminal(Strip(s)[k])
  {
    TrimRight(Strip(s), IsTerminal)
  }

  /** The cleaned text before the length cap: allowed characters only, no
      doubled underscore, no underscore at either end. */
  function Cleaned(s: string): (r: string)
    ensures |r| <= |Prepared(s)|
    ensures AllAllowed(r)
    ensures NoDoubleUnderscore(r)
    ensures IsTrimmed(r, IsUnderscore)
  {
    var c := CollapseUnderscores(ReplaceDisallowed(Prepared(s)));
    SliceKeepsSafety(c, TrimStart(c, IsUnderscore), TrimStop(c, IsUnderscore));
    Trim(c, IsUnderscore)
  }

  /** A slice of an allowed text without doubled underscores is one too. */
  lemma SliceKeepsSafety(c: string, a: nat, b: nat)
    requires a <= b <= |c| && AllAllowed(c) && NoDoubleUnderscore(c)
    ensures AllAllowed(c[a..b]) && NoDoubleUnderscore(c[a..b])
  {
    assert forall k :: 0 <= k < b - a ==> c[a..b][k] == c[a + k];
  }

  /** `clean_filename(text)`: always a safe stem; the sentinel for a missing
      or empty text and whenever nothing survives cleaning; a cleaned text
      longer than 100 characters is cut to its first 97 plus "...". */
  function CleanFilename(text: Option<string>): (r: string)
    ensures IsSafeStem(r)
    ensures !IsTruthy(text) ==> r == Sentinel
    ensures IsTruthy(text) && Cleaned(text.value) == [] ==> r == Sentinel
    ensures IsTruthy(text) && 0 < |Cleaned(text.value)| <= MaxLen ==> r == Cleaned(text.value)
    ensures IsTruthy(text) && |Cleaned(text.value)| > MaxLen ==>
      |r| == MaxLen && r[..KeepLen] == Cleaned(text.value)[..KeepLen] && r[KeepLen..] == Ellipsis
  {
    SentinelIsFinal();
    if !IsTruthy(text) then Sentinel
    else
      var c := Cleaned(text.value);
      if |c| > MaxLen then Truncate(c)
      else if c == [] then Sentinel
      else c
  }

  /** The cut of an over-long cleaned text: its first 97 characters and
      "...", which is still a safe stem. */
  function Truncate(c: string): (r: string)
    requires |c| > MaxLen && AllAllowed(c) && NoDoubleUnderscore(c) && c[0] != '_'
    ensures IsSafeStem(r)
    ensures |r| == MaxLen && r[..KeepLen] == c[..KeepLen] && r[KeepLen..] == Ellipsis
  {
    var cut := c[..KeepLen] + Ellipsis;
    assert forall k :: 0 <= k < KeepLen ==> cut[k] == c[k];
    assert forall k :: KeepLen <= k < MaxLen ==> cut[k] == '.';
    cut
  }

  /** Replacing turns exactly the kept characters into non-underscores. */
  lemma {:induction false} FilterReplace(s: string)
    ensures Filter(ReplaceDisallowed(s), NotUnderscore) == Filter(s, IsKept)
    decreases |s|
  {
    if s != [] {
      var r := ReplaceDisallowed(s);
      assert r[0] == Substitute(s[0]) && r[1..] == ReplaceDisallowed(s[1..]);
      FilterReplace(s[1..]);
    }
  }

  /** Collapsing underscores never touches any other character. */
  lemma {:induction false} FilterCollapse(s: string)
    ensures Filter(CollapseUnderscores(s), NotUnderscore) == Filter(s, NotUnderscore)
    decreases |s|
  {
    if |s| >= 2 {
      FilterCollapse(s[1..]);
      if !(s[0] == '_' && s[1] == '_') {
        var r := [s[0]] + CollapseUnderscores(s[1..]);
        assert r[0] == s[0] && r[1..] == CollapseUnderscores(s[1..]);
      }
    }
  }

  /** Stripping underscores never touches any other character. */
  lemma FilterTrimUnderscores(c: string)
    ensures Filter(Trim(c, IsUnderscore), NotUnderscore) == Filter(c, NotUnderscore)
  {
    var a, b := TrimStart(c, IsUnderscore), TrimStop(c, IsUnderscore);
    var x, y, z := c[..a], c[a..b], c[b..];
    SplitInThree(c, a, b);
    FilterConcat(x + y, z, NotUnderscore);
    FilterConcat(x, y, NotUnderscore);
    assert forall k :: 0 <= k < |x| ==> x[k] == c[k] == '_';
    assert forall k :: 0 <= k < |z| ==> z[k] == c[b + k] == '_';
    FilterEmpty(x, NotUnderscore);
    FilterEmpty(z, NotUnderscore);
  }

  /** Cleaning keeps every allowed character other than `_`, in order, and
      adds none: only underscores are introduced, merged or dropped. */
  lemma CleanedKeepsText(s: string)
    ensures Filter(Cleaned(s), NotUnderscore) == Filter(Prepared(s), IsKept)
  {
    var p := Prepared(s);
    FilterReplace(p);
    FilterCollapse(ReplaceDisallowed(p));
    FilterTrimUnderscores(CollapseUnderscores(ReplaceDisallowed(p)));
  }

  /** Nothing survives cleaning exactly when the prepared text holds no
      allowed character other than `_`. */
  lemma CleanedEmptyIff(s: string)
    ensures Cleaned(s) == [] <==> forall k :: 0 <= k < |Prepared(s)| ==> !IsKept(Prepared(s)[k])
  {
    var c := Cleaned(s);
    CleanedKeepsText(s);
    FilterEmpty(Prepared(s), IsKept);
    FilterEmpty(c, NotUnderscore);
  }

  /** A text without a single allowed character other than `_` (so also an
      empty or all-invalid one) yields the sentinel. */
  lemma CleanWithoutKeptChars(s: string)
    requires forall k :: 0 <= k < |s| ==> !IsKept(s[k])
    ensures CleanFilename(Some(s)) == Sentinel
  {
    var st := Strip(s);
    var a := TrimStart(s, IsSpace);
    assert st == s[a..TrimStop(s, IsSpace)];
    var p := Prepared(s);
    assert p <= st;
    forall k | 0 <= k < |p|
      ensures !IsKept(p[k])
    {
      assert p[k] == st[k] == s[a + k];
    }
    CleanedEmptyIff(s);
  }

  /** `re.sub(r'_+', '_', s)` merges a doubled underscore anywhere: dropping
      one `_` of a pair does not change the result. */
  lemma {:induction false} CollapseMergesPair(a: string, b: string)
    ensures CollapseUnderscores(a + "__" + b) == CollapseUnderscores(a + "_" + b)
    decreases |a|
  {
    var x, y := a + "__" + b, a + "_" + b;
    if a == [] {
      assert x[1..] == y;
    } else {
      CollapseMergesPair(a[1..], b);
      assert x[1..] == a[1..] + "__" + b && y[1..] == a[1..] + "_" + b;
      assert x[0] == y[0] && x[1] == y[1];
    }
  }

  predicate NotKept(c: char) {
    !IsKept(c)
  }

  /** An independent account of replacing and collapsing: each kept
      character stays, and each maximal run of other characters (disallowed
      ones and `_` alike) becomes exactly one `_`. */
  function Squash(p: string): string
    decreases |p|
  {
    if p == [] then []
    else if IsKept(p[0]) then [p[0]] + Squash(p[1..])
    else "_" + Squash(p[RunEnd(p, 0, NotKept)..])
  }

  lemma ReplaceSuffix(p: string, i: nat)
    requires i <= |p|
    ensures ReplaceDisallowed(p)[i..] == ReplaceDisallowed(p[i..])
  {
    var r, q := ReplaceDisallowed(p), ReplaceDisallowed(p[i..]);
    forall k | 0 <= k < |q|
      ensures r[i..][k] == q[k]
    {
      assert p[i..][k] == p[i + k];
    }
  }

  /** A leading run of `e` underscores collapses to one. */
  lemma {:induction false} CollapseRun(u: string, e: nat)
    requires 1 <= e <= |u|
    requires forall k :: 0 <= k < e ==> u[k] == '_'
    requires e == |u| || u[e] != '_'
    ensures CollapseUnderscores(u) == "_" + CollapseUnderscores(u[e..])
    decreases e
  {
    if e == 1 {
      if |u| == 1 {
        assert u == "_" && u[1..] == [];
      }
    } else {
      CollapseRun(u[1..], e - 1);
      assert u[1..][e - 1..] == u[e..];
    }
  }

  /** Replacing then collapsing is `Squash`. */
  lemma {:induction false} CollapseReplaced(p: string)
    ensures CollapseUnderscores(ReplaceDisallowed(p)) == Squash(p)
    decreases |p|
  {
    if p != [] {
      var r := ReplaceDisallowed(p);
      if IsKept(p[0]) {
        ReplaceSuffix(p, 1);
        CollapseReplaced(p[1..]);
        if |r| == 1 {
          assert r == [p[0]] && p[1..] == [];
        }
      } else {
        var e := RunEnd(p, 0, NotKept);
        assert forall k :: 0 <= k < e ==> r[k] == Substitute(p[k]) == '_';
        CollapseRun(r, e);
        ReplaceSuffix(p, e);
        CollapseReplaced(p[e..]);
      }
    }
  }

  /** A kept character splits `Squash` in two: it separates nothing and is
      never merged with its neighbours. */
  lemma {:induction false} SquashSplitsAtKept(x: string, c: char, y: string)
    requires IsKept(c)
    ensures Squash(x + [c] + y) == Squash(x) + [c] + Squash(y)
    decreases |x|
  {
    var z := x + [c] + y;
    if x == [] {
      assert z == [c] + y && z[1..] == y;
    } else if IsKept(x[0]) {
      DropFromFront(x, c, y, 1);
      SquashSplitsAtKept(x[1..], c, y);
    } else {
      var e := RunEnd(z, 0, NotKept);
      assert z[|x|] == c;
      assert e <= |x|;
      forall k | 0 <= k < e
        ensures NotKept(x[k])
      {
        assert x[k] == z[k];
      }
      assert e < |x| ==> x[e] == z[e];
      RunEndIs(x, 0, NotKept, e);
      DropFromFront(x, c, y, e);
      SquashSplitsAtKept(x[e..], c, y);
    }
  }

  /** A non-empty stretch without a kept character squashes to one `_`. */
  lemma SquashGap(u: string)
    requires u != [] && forall k :: 0 <= k < |u| ==> NotKept(u[k])
    ensures Squash(u) == "_"
  {
    RunEndIs(u, 0, NotKept, |u|);
    assert u[|u|..] == [];
  }

  /** Between two kept characters, `Squash` leaves one `_` exactly when
      something (disallowed or `_`) stood between them, and nothing when
      they were adjacent. */
  lemma SquashSeparates(x: string, c: char, gap: string, d: char, y: string)
    requires IsKept(c) && IsKept(d)
    requires forall k :: 0 <= k < |gap| ==> NotKept(gap[k])
    ensures Squash(x + [c] + gap + [d] + y)
      == Squash(x) + [c] + (if gap == [] then [] else "_") + [d] + Squash(y)
  {
    var tail := gap + [d] + y;
    GroupLastThree(x, [c], gap, [d], y);
    SquashSplitsAtKept(x, c, tail);
    SquashSplitsAtKept(gap, d, y);
    var g := Squash(gap);
    if gap != [] {
      SquashGap(gap);
    } else {
      assert g == [];
    }
    GroupLastThree(Squash(x), [c], g, [d], Squash(y));
  }

  /** The cleaned text is the squashed prepared text with underscores
      stripped from both ends. */
  lemma CleanedSquashes(s: string)
    ensures Cleaned(s) == Trim(Squash(Prepared(s)), IsUnderscore)
  {
    CollapseReplaced(Prepared(s));
  }

  /** With no doubled underscore there is nothing to collapse. */
  lemma {:induction false} CollapseLeavesSingles(s: string)
    requires NoDoubleUnderscore(s)
    ensures CollapseUnderscores(s) == s
    decreases |s|
  {
    if |s| >= 2 {
      assert NoDoubleUnderscore(s[1..]) by {
        forall k | 0 <= k < |s[1..]| - 1
          ensures !(s[1..][k] == '_' && s[1..][k + 1] == '_')
        {
          assert s[1..][k] == s[k + 1] && s[1..][k + 1] == s[k + 2];
        }
      }
      CollapseLeavesSingles(s[1..]);
      assert s == [s[0]] + s[1..];
    }
  }

  /** A stem that is safe and has no space at either end and no terminal
      mark at the end: exactly the stems cleaning leaves alone. */
  predicate IsFinalStem(s: string) {
    && IsSafeStem(s)
    && s[0] != ' '
    && s[|s| - 1] != ' '
    && !IsTerminal(s[|s| - 1])
  }

  /** Removing a terminal mark or a surrounding space shortens the text. */
  lemma PreparedShortens(s: string)
    ensures |Prepared(s)| == |s| ==> Prepared(s) == s && IsTrimmed(s, IsSpace)
    ensures |Prepared(s)| == |s| && s != [] ==> !IsTerminal(s[|s| - 1])
  {
    var st := Strip(s);
    if |Prepared(s)| == |s| {
      assert |st| == |s|;
      assert st == s[TrimStart(s, IsSpace)..TrimStop(s, IsSpace)];
      assert TrimStart(s, IsSpace) == 0 && TrimStop(s, IsSpace) == |s|;
      assert st == s;
    }
  }

  lemma SentinelIsFinal()
    ensures IsFinalStem(Sentinel)
  {
    assert forall k :: 0 <= k < |Sentinel| ==> 'a' <= Sentinel[k] <= 'z';
  }

  /** A stem cleaning leaves alone is final. */
  lemma FixedPointIsFinal(s: string)
    requires CleanFilename(Some(s)) == s
    ensures IsFinalStem(s)
  {
    var c := Cleaned(s);
    PreparedShortens(s);
    if c == [] {
      SentinelIsFinal();
    }
  }

  /** Cleaning leaves every final stem alone. */
  lemma FinalIsFixedPoint(s: string)
    requires IsFinalStem(s)
    ensures CleanFilename(Some(s)) == s
  {
    assert NotSpace(s[0]) && NotSpace(s[|s| - 1]);
    RunEndIs(s, 0, IsSpace, 0);
    assert Strip(s) == s;
    assert Prepared(s) == s;
    var r := ReplaceDisallowed(s);
    assert r == s;
    CollapseLeavesSingles(s);
    RunEndIs(s, 0, IsUnderscore, 0);
    assert Cleaned(s) == s;
  }

  /** The fixed points of `clean_filename` are exactly the final stems. */
  lemma CleanFixedPoints(s: string)
    ensures CleanFilename(Some(s)) == s <==> IsFinalStem(s)
  {
    if CleanFilename(Some(s)) == s {
      FixedPointIsFinal(s);
    }
    if IsFinalStem(s) {
      FinalIsFixedPoint(s);
    }
  }

  lemma PreparedExample()
    ensures Prepared("hello ?") == "hello "
  {
    var s := "hello ?";
    assert NotSpace(s[0]) && NotSpace(s[6]);
    RunEndIs(s, 0, IsSpace, 0);
    assert RunStart(s, 7, IsSpace) == 7;
    assert Strip(s) == s;
    assert IsTerminal(s[6]) && !IsTerminal(s[5]);
    assert RunStart(s, 7, IsTerminal) == 6;
  }

  lemma CleanedExample()
    ensures Cleaned("hello ?") == "hello "
  {
    var q := "hello ";
    PreparedExample();
    assert AllAllowed(q) by {
      assert forall k :: 0 <= k < 5 ==> 'a' <= q[k] <= 'z';
    }
    var r := ReplaceDisallowed(q);
    assert r == q;
    assert NoDoubleUnderscore(q);
    CollapseLeavesSingles(q);
    RunEndIs(q, 0, IsUnderscore, 0);
    assert RunStart(q, 6, IsUnderscore) == 6;
  }

  lemma CleanExample()
    ensures CleanFilename(Some("hello ?")) == "hello "
  {
    CleanedExample();
    assert IsTruthy(Some("hello ?"));
  }

  /** `clean_filename` is not idempotent: "hello ?" cleans to "hello ",
      which is not a fixed point because it ends in a space. */
  lemma CleanNotIdempotent()
    ensures CleanFilename(Some("hello ?")) == "hello "
    ensures CleanFilename(Some(CleanFilename(Some("hello ?")))) != CleanFilename(Some("hello ?"))
  {
    CleanExample();
    var q := "hello ";
    assert !IsFinalStem(q) by {
      assert q[|q| - 1] == ' ';
    }
    CleanFixedPoints(q);
  }
}

=== FILE: seqs.dfy ===
/** Sequence-algebra steps the proofs about text and file names rely on.
    Each states one regrouping of slices or concatenations, kept small and
    generic so the solver meets it without the surrounding definitions. */
module Seqs {

  /** Cutting a sequence around one element. */
  lemma SplitAround<T>(t: seq<T>, e: nat)
    requires e < |t|
    ensures t[e..][1..] == t[e + 1..] && t == t[..e] + [t[e]] + t[e + 1..]
  {
  }

  /** A slice and a drop of a suffix, in terms of the whole sequence. */
  lemma SlicesOfSuffix<T>(s: seq<T>, e: nat, i: nat)
    requires e <= i < |s|
    ensures s[e..][..i - e] == s[e..i] && s[e..][i - e + 1..] == s[i + 1..]
  {
  }

  /** A head put before a concatenation. */
  lemma PrependToConcat<T>(whole: seq<T>, head: T, rest: seq<T>, front: seq<T>, back: seq<T>)
    requires whole == [head] + rest && rest == front + back
    ensures whole == ([head] + front) + back
  {
  }

  /** A sequence cut at two points. */
  lemma SplitInThree<T>(c: seq<T>, a: nat, b: nat)
    requires a <= b <= |c|
    ensures c == c[..a] + c[a..b] + c[b..]
  {
    assert c[..b] == c[..a] + c[a..b];
  }

  /** Dropping a prefix of the first part of `x + [c] + y`. */
  lemma DropFromFront<T>(x: seq<T>, c: T, y: seq<T>, e: nat)
    requires e <= |x|
    ensures (x + [c] + y)[e..] == x[e..] + [c] + y
    ensures 0 < |x| ==> (x + [c] + y)[0] == x[0]
  {
  }

  /** Regrouping the last three of five parts. */
  lemma GroupLastThree<T>(a: seq<T>, b: seq<T>, c: seq<T>, d: seq<T>, e: seq<T>)
    ensures a + b + c + d + e == a + b + (c + d + e)
  {
  }
}

=== FILE: text.dfy ===
/** The Python string primitives the renamer is built from, on `seq<char>`:
    Unicode whitespace, `str.strip`, `str.split()`, `' '.join` and the
    whitespace normalisation `' '.join(s.split())`. */
module Text {
  import opened Maybe
  import opened Seqs

  /** The ellipsis both the phrase extractor and the sanitizer append. */
  const Ellipsis := "..."

  /** Python's truth value of an optional string: present and non-empty. */
  predicate IsTruthy(text: Option<string>) {
    text.Some? && text.value != []
  }

  /** The code points for which Python's `str.isspace()` holds; the regex
      class `\s` of a `str` pattern uses the same table. */
  predicate IsSpace(c: char) {
    || c == ' '
    || '\t' <= c <= '\r'
    || '\U{1c}' <= c <= '\U{1f}'
    || c == '\U{85}' || c == '\U{a0}' || c == '\U{1680}'
    || '\U{2000}' <= c <= '\U{200a}'
    || c == '\U{2028}' || c == '\U{2029}' || c == '\U{202f}'
    || c == '\U{205f}' || c == '\U{3000}'
  }

  predicate NotSpace(c: char) {
    !IsSpace(c)
  }

  /** Sentence-terminal punctuation, the regex class `[.!?]`. */
  predicate IsTerminal(c: char) {
    c == '.' || c == '!' || c == '?'
  }

  function Min(a: int, b: int): int {
    if a <= b then a else b
  }

  function Max(a: int, b: int): int {
    if a <= b then b else a
  }

  /** The end of the run of `p`-characters that starts at `i`. */
  function RunEnd(s: string, i: nat, p: char -> bool): (j: nat)
    requires i <= |s|
    ensures i <= j <= |s|
    ensures forall k :: i <= k < j ==> p(s[k])
    ensures j == |s| || !p(s[j])
    decreases |s| - i
  {
    if i < |s| && p(s[i]) then RunEnd(s, i + 1, p) else i
  }

  /** The start of the run of `p`-characters that ends just before `j`. */
  function RunStart(s: string, j: nat, p: char -> bool): (i: nat)
    requires j <= |s|
    ensures i <= j
    ensures forall k :: i <= k < j ==> p(s[k])
    ensures i == 0 || !p(s[i - 1])
  {
    if j > 0 && p(s[j - 1]) then RunStart(s, j - 1, p) else j
  }

  /** The run characterisation fixes RunEnd uniquely. */
  lemma RunEndIs(s: string, i: nat, p: char -> bool, j: nat)
    requires i <= j <= |s|
    requires forall k :: i <= k < j ==> p(s[k])
    requires j == |s| || !p(s[j])
    ensures RunEnd(s, i, p) == j
  {
  }

  predicate IsTrimmed(s: string, p: char -> bool) {
    s == [] || (!p(s[0]) && !p(s[|s| - 1]))
  }

  /** `s.rstrip(chars)`: drop the maximal suffix of `p`-characters. */
  function TrimRight(s: string, p: char -> bool): (r: string)
    ensures r <= s
    ensures r == [] || !p(r[|r| - 1])
    ensures forall k :: |r| <= k < |s| ==> p(s[k])
  {
    s[..RunStart(s, |s|, p)]
  }

  /** Where `s.strip(chars)` cuts on the left: after the leading run. */
  function TrimStart(s: string, p: char -> bool): (a: nat)
    ensures a <= |s|
    ensures forall k :: 0 <= k < a ==> p(s[k])
  {
    RunEnd(s, 0, p)
  }

  /** Where `s.strip(chars)` cuts on the right: CPython walks back from the
      end over `p`-characters but never past the left cut. */
  function TrimStop(s: string, p: char -> bool): (b: nat)
    ensures TrimStart(s, p) <= b <= |s|
    ensures forall k :: b <= k < |s| ==> p(s[k])
  {
    Max(TrimStart(s, p), RunStart(s, |s|, p))
  }

  /** `s.strip(chars)` for the set of characters `p` accepts. */
  function Trim(s: string, p: char -> bool): (r: string)
    ensures r == s[TrimStart(s, p)..TrimStop(s, p)]
    ensures IsTrimmed(r, p)
  {
    s[TrimStart(s, p)..TrimStop(s, p)]
  }

  /** `s.strip()`. */
  function Strip(s: string): (r: string)
    ensures |r| <= |s|
    ensures IsTrimmed(r, IsSpace)
  {
    Trim(s, IsSpace)
  }

  /** Stripping a text that ends in a non-space keeps that last character. */
  lemma StripKeepsLast(u: string)
    requires u != [] && NotSpace(u[|u| - 1])
    ensures Strip(u) != [] && Strip(u)[|Strip(u)| - 1] == u[|u| - 1]
  {
    assert RunStart(u, |u|, IsSpace) == |u|;
    assert TrimStart(u, IsSpace) < |u|;
  }

  /** The characters of `s` that `p` accepts, in order. */
  function Filter(s: string, p: char -> bool): (r: string)
    ensures |r| <= |s|
    ensures forall k :: 0 <= k < |r| ==> p(r[k])
  {
    if s == [] then [] else (if p(s[0]) then [s[0]] else []) + Filter(s[1..], p)
  }

  lemma {:induction false} FilterConcat(a: string, b: string, p: char -> bool)
    ensures Filter(a + b, p) == Filter(a, p) + Filter(b, p)
    decreases |a|
  {
    if a == [] {
      assert a + b == b;
    } else {
      assert (a + b)[0] == a[0];
      assert (a + b)[1..] == a[1..] + b;
      FilterConcat(a[1..], b, p);
    }
  }

  /** Filter keeps nothing exactly when no character passes. */
  lemma {:induction false} FilterEmpty(s: string, p: char -> bool)
    ensures Filter(s, p) == [] <==> forall k :: 0 <= k < |s| ==> !p(s[k])
    decreases |s|
  {
    if s != [] {
      FilterEmpty(s[1..], p);
      if p(s[0]) {
        assert Filter(s, p)[0] == s[0];
      } else {
        forall k | 1 <= k < |s| && p(s[k])
          ensures Filter(s, p) != []
        {
          assert s[1..][k - 1] == s[k];
        }
      }
    }
  }

  /** A word of `str.split()`: non-empty and free of whitespace. */
  predicate IsWord(w: string) {
    |w| > 0 && forall k :: 0 <= k < |w| ==> NotSpace(w[k])
  }

  /** `s.split()`: the maximal runs of non-whitespace, left to right. */
  function Words(s: string): (ws: seq<string>)
    ensures forall i :: 0 <= i < |ws| ==> IsWord(ws[i])
    ensures s == [] ==> ws == []
    decreases |s|
  {
    if s == [] then []
    else if IsSpace(s[0]) then Words(s[1..])
    else
      var e := RunEnd(s, 0, NotSpace);
      [s[..e]] + Words(s[e..])
  }

  /** A single word splits into itself. */
  lemma WordsOfWord(s: string)
    requires IsWord(s)
    ensures Words(s) == [s]
  {
    RunEndIs(s, 0, NotSpace, |s|);
    assert s[..|s|] == s && s[|s|..] == [];
  }

  /** `split()` of a string that starts with a word: that word, then the
      words of the rest. */
  lemma WordsOfLeadingWord(s: string)
    requires s != [] && NotSpace(s[0])
    ensures var e := RunEnd(s, 0, NotSpace);
      Words(s) == [s[..e]] + Words(s[e..])
  {
  }

  /** A prefix that ends before a whitespace character keeps the first word
      of `s` whole. */
  lemma LeadingWordOfPrefix(s: string, i: nat)
    requires 0 < i < |s| && NotSpace(s[0]) && IsSpace(s[i])
    ensures RunEnd(s, 0, NotSpace) <= i
    ensures var e := RunEnd(s, 0, NotSpace);
      Words(s[..i]) == [s[..e]] + Words(s[e..i])
  {
    var e := RunEnd(s, 0, NotSpace);
    var u := s[..i];
    RunEndIs(u, 0, NotSpace, e);
    assert u[..e] == s[..e] && u[e..] == s[e..i];
  }

  /** `split()` cuts at every whitespace character: the words of `s` are the
      words before a whitespace character followed by the words after it. */
  lemma {:induction false} WordsSplitAtSpace(s: string, i: nat)
    requires i < |s| && IsSpace(s[i])
    ensures Words(s) == Words(s[..i]) + Words(s[i + 1..])
    decreases |s|, 1
  {
    if i == 0 {
      assert s[..0] == [];
    } else if IsSpace(s[0]) {
      SplitAfterLeadingSpace(s, i);
    } else {
      SplitAfterLeadingWord(s, i);
    }
  }

  /** The induction step of `WordsSplitAtSpace` past a leading space. */
  lemma {:induction false} SplitAfterLeadingSpace(s: string, i: nat)
    requires 0 < i < |s| && IsSpace(s[i]) && IsSpace(s[0])
    ensures Words(s) == Words(s[..i]) + Words(s[i + 1..])
    decreases |s|, 0
  {
    var r := s[1..];
    WordsSplitAtSpace(r, i - 1);
    assert r[..i - 1] == s[..i][1..] && r[i..] == s[i + 1..];
  }

  /** The induction step of `WordsSplitAtSpace` past a leading word. */
  lemma {:induction false} SplitAfterLeadingWord(s: string, i: nat)
    requires 0 < i < |s| && IsSpace(s[i]) && NotSpace(s[0])
    ensures Words(s) == Words(s[..i]) + Words(s[i + 1..])
    decreases |s|, 0
  {
    var e := RunEnd(s, 0, NotSpace);
    var r := s[e..];
    LeadingWordOfPrefix(s, i);
    WordsOfLeadingWord(s);
    WordsSplitAtSpace(r, i - e);
    SlicesOfSuffix(s, e, i);
    PrependToConcat(Words(s), s[..e], Words(r), Words(s[e..i]), Words(s[i + 1..]));
  }

  /** `' '.join(ws)`. */
  function Join(ws: seq<string>): string {
    if |ws| == 0 then []
    else if |ws| == 1 then ws[0]
    else ws[0] + " " + Join(ws[1..])
  }

  /** The shape of `' '.join(s.split())`: no whitespace at either end, and
      every whitespace character is a single ' ' between two words. */
  predicate IsNormalised(t: string) {
    && (|t| > 0 ==> NotSpace(t[0]) && NotSpace(t[|t| - 1]))
    && (forall k :: 0 <= k < |t| && IsSpace(t[k]) ==> t[k] == ' ' && k + 1 < |t| && NotSpace(t[k + 1]))
  }

  /** Joining words with single spaces yields a normalised string. */
  lemma {:induction false} JoinNormalised(ws: seq<string>)
    requires forall i :: 0 <= i < |ws| ==> IsWord(ws[i])
    ensures IsNormalised(Join(ws))
    ensures |ws| > 0 ==> |Join(ws)| > 0
  {
    if |ws| == 1 {
      assert Join(ws) == ws[0];
    } else if |ws| > 1 {
      var w, rest := ws[0], Join(ws[1..]);
      JoinNormalised(ws[1..]);
      var t := w + " " + rest;
      assert Join(ws) == t;
      assert IsWord(w);
      forall k | 0 <= k < |t| && IsSpace(t[k])
        ensures t[k] == ' ' && k + 1 < |t| && NotSpace(t[k + 1])
      {
        if k == |w| {
          assert t[k + 1] == rest[0];
        } else if k > |w| {
          assert t[k] == rest[k - |w| - 1];
          if k + 1 < |t| {
            assert t[k + 1] == rest[k - |w|];
          }
        }
      }
    }
  }

  /** `str.split()` undoes `' '.join` on a list of words. */
  lemma {:induction false} WordsOfJoin(ws: seq<string>)
    requires forall i :: 0 <= i < |ws| ==> IsWord(ws[i])
    ensures Words(Join(ws)) == ws
  {
    if |ws| == 1 {
      var w := ws[0];
      RunEndIs(w, 0, NotSpace, |w|);
      assert w[..|w|] == w && w[|w|..] == [];
    } else if |ws| > 1 {
      var w, rest := ws[0], Join(ws[1..]);
      var t := w + " " + rest;
      assert Join(ws) == t;
      assert t[|w|] == ' ';
      forall k | 0 <= k < |w|
        ensures NotSpace(t[k])
      {
        assert t[k] == w[k];
      }
      RunEndIs(t, 0, NotSpace, |w|);
      assert t[..|w|] == w;
      assert t[|w|..][1..] == rest;
      WordsOfJoin(ws[1..]);
      assert ws == [w] + ws[1..];
    }
  }

  /** Joining a word onto a non-empty list puts one space between them. */
  lemma JoinCons(w: string, ws: seq<string>)
    requires ws != []
    ensures Join([w] + ws) == w + " " + Join(ws)
  {
    assert ([w] + ws)[1..] == ws;
  }

  /** What follows a space of a normalised string is normalised and
      non-empty. */
  lemma NormalisedAfterSpace(t: string, e: nat)
    requires IsNormalised(t) && e < |t| && IsSpace(t[e])
    ensures e + 1 < |t| && IsNormalised(t[e + 1..])
  {
    var rest := t[e + 1..];
    forall k | 0 <= k < |rest| && IsSpace(rest[k])
      ensures rest[k] == ' ' && k + 1 < |rest| && NotSpace(rest[k + 1])
    {
      assert rest[k] == t[e + 1 + k];
      if k + 1 < |rest| {
        assert rest[k + 1] == t[e + 2 + k];
      }
    }
  }

  /** A normalised string is its own normalisation. */
  lemma {:induction false} JoinOfWords(t: string)
    requires IsNormalised(t)
    ensures Join(Words(t)) == t
    decreases |t|
  {
    if t != [] {
      var e := RunEnd(t, 0, NotSpace);
      var w := t[..e];
      WordsOfLeadingWord(t);
      if e == |t| {
        assert w == t && t[e..] == [];
      } else {
        var rest := t[e + 1..];
        NormalisedAfterSpace(t, e);
        SplitAround(t, e);
        assert Words(t[e..]) == Words(rest);
        JoinOfWords(rest);
        JoinCons(w, Words(rest));
      }
    }
  }

  /** `' '.join(s.split())`: whitespace runs collapsed to one space and the
      ends trimmed, without losing or changing a word. */
  function Normalise(s: string): (t: string)
    ensures IsNormalised(t)
    ensures Words(t) == Words(s)
    ensures t == [] <==> Words(s) == []
  {
    var ws := Words(s);
    JoinNormalised(ws);
    WordsOfJoin(ws);
    Join(ws)
  }

  /** Normalisation leaves exactly the normalised strings unchanged. */
  lemma NormaliseFixedPoints(s: string)
    ensures Normalise(s) == s <==> IsNormalised(s)
  {
    if IsNormalised(s) {
      JoinOfWords(s);
    }
  }

  /** Stripping a prefix of a normalised string removes at most the one
      space it may end with. */
  lemma StripNormalisedPrefix(t: string, m: nat)
    requires IsNormalised(t) && m <= |t|
    ensures Strip(t[..m]) == if m > 0 && IsSpace(t[m - 1]) then t[..m - 1] else t[..m]
  {
    var u := t[..m];
    var a := TrimStart(u, IsSpace);
    var b := RunStart(u, |u|, IsSpace);
    if m > 0 {
      assert a == 0 by {
        assert NotSpace(u[0]);
      }
      if IsSpace(t[m - 1]) {
        assert m >= 2 && NotSpace(t[m - 2]) by {
          assert NotSpace(t[0]);
        }
        assert b == m - 1;
      } else {
        assert b == m;
      }
    }
  }

  lemma StripNormalised(t: string)
    requires IsNormalised(t)
    ensures Strip(t) == t
  {
    StripNormalisedPrefix(t, |t|);
    assert t[..|t|] == t;
  }
}
